=== FILE: README.md ===
# 3D print box packer: print-time extraction and lookup, in Dafny

The repository prepares 3D print jobs. For every printer subdirectory
("Black", "Orange") it slices each `.stl` model, reads the estimated print time
that the slicer writes into the G-code, and builds a print-time index. The index
groups the `(subdir, file, seconds)` triples by printer and sorts each group by
time, longest first. It reports each time as days, hours and minutes, and
`utils.py` can look a file's time up by name. This project models that integer
and list logic as pure Dafny functions and proves what it computes.

Modules, in dependency order:

- `Results` (results.dfy): `Option`, `Result`, and the exceptions the code raises (`KeyError`, the `TypeError` of an empty `reduce`, and `get_file_print_time`'s "not found").
- `Text` (text.dfy): `str.endswith`, the `\d` class, `re.findall(r"\d+", …)`, `int(…)` and `str(…)` on numerals.
- `Annotation` (annotation.dfy): the two compiled patterns `; estimated printing time (<mode> mode) = (\d+h \d+m \d+s)` and leftmost `search`.
- `Duration` (duration.dfy): the `reduce(lambda x, y: x*60 + y, …)` fold and the conversion of a captured text into seconds.
- `Extraction` (extraction.dfy): `process_stl_files`, which covers the `.stl` filter, the G-code name, the first matching line and the conversion.
- `Index` (index.dfy): collecting the triples over `config_map`, grouping by subdirectory in first-seen order, and the stable descending sort.
- `TimeSplit` (timesplit.dfy): the days/hours/minutes split of main.py and of `display_total_print_time` and `display_stl_print_time`.
- `Report` (report.dfy): which rows main.py prints on each pass of its loop over `config_map`. The grouping loop at main.py:103 rebinds `current_subdir`, so the table printed is that of the last triple collected so far (see Findings).
- `Utils` (utils.py's `filter_stl_files` and `get_file_print_time`, in utils.dfy).

I/O is given as parameters. A directory listing is a `seq<string>`, in whatever order `os.listdir` returned it. Reading a G-code file is a function `read` from the G-code file name to its lines.

The model follows the code as written:

- The code accepts only the three-field form `<h>h <m>m <s>s`. It has no days field and no optional components.
- A G-code file without an annotation adds no entry. It is not an error.
- Python's `//` and `%` floor for a positive divisor, and so do Dafny's `/` and `%`. So the time split is modelled for every integer, negative ones included.

## Model

| member | source | states |
|---|---|---|
| `Text.DigitRunsCoverDigits` | main.py:83 | `re.findall(r"\d+", time)` joined back together is exactly the digits of `time`: no digit is lost or invented |
| `Text.DecimalRoundTrip` | main.py:83 | `int` applied to the decimal text of `n` gives back `n` |
| `Annotation.MatchFieldExact` | main.py:22 | `\d+` followed by a unit letter matches exactly the whole numeral; greedy matching cannot split it differently |
| `Annotation.MatchHmsCapture` | main.py:21-26 | every text `<h>h <m>m <s>s` made of numerals matches the duration group, whatever follows it, and yields exactly those three numerals |
| `Annotation.SearchLeftmost` | main.py:70 | `search` finds nothing exactly when the pattern matches at no position; otherwise its capture is the one of the leftmost match, and it is a well-formed duration |
| `Annotation.SearchFindsAnnotation` | main.py:21-26 | a line made of the mode prefix followed by a duration is found, and the capture is that duration |
| `Duration.Reduce60` | main.py:83 | the fold raises (is `None`) exactly on an empty sequence; otherwise it returns the base-60 value of the sequence, most significant first |
| `Duration.Reduce60Single` | main.py:83 | the fold of a one-element sequence is that element |
| `Duration.Reduce60Snoc` | main.py:83 | Horner step: appending `d` to a sequence with value `v` gives `60*v + d` |
| `Duration.Reduce60Three` | main.py:83 | the fold of `[h, m, s]` is `h*3600 + m*60 + s` |
| `Duration.ParseDuration` | main.py:83 | converting a captured text fails (the empty-`reduce` TypeError) exactly when the text has no digits |
| `Duration.ParseCapture` | main.py:83 | the captured text of any match converts to `h*3600 + m*60 + s`, where h, m and s are the values of its three numerals |
| `Duration.DurationOfWrittenTime` | main.py:21-26 | for any naturals h, m and s, the annotation text written for them converts back to exactly `h*3600 + m*60 + s` |
| `Extraction.TimeRegexFor` | main.py:28-31 | a pattern exists exactly for "Black" (silent mode) and "Orange" (normal mode) |
| `Extraction.FirstSome` | main.py:63-74 | the loop that stops at the first hit returns nothing exactly when there is no hit; otherwise it returns a hit that has no hit before it |
| `Extraction.FirstMatchSpec` | main.py:62-74 | the extracted capture comes from a matching line with no matching line before it; there is none exactly when no line matches |
| `Extraction.FirstMatchIgnoresLater` | main.py:72-74 | once a line has matched, the lines after it are never consulted: adding lines does not change the result |
| `Extraction.FirstMatchSkipsMisses` | main.py:63-74 | lines without a match are passed over without effect |
| `Extraction.ScanGcode` | main.py:62-74 | scanning a file raises `KeyError(subdir)` exactly when the file has a line and the subdirectory has no pattern; otherwise it gives the capture of the first matching line, or nothing when no line matches (an empty file of an unmapped subdirectory gives nothing) |
| `Extraction.LastDot` | main.py:42 | `rfind(".")`: the position of a dot with no dot after it, or none when the name has no dot |
| `Extraction.GcodeName` | main.py:42-45 | for a name ending in ".stl", the G-code name is the name without ".stl" followed by "_gcode.gcode", unless only dots precede ".stl"; then `splitext` keeps the whole name as the stem |
| `Extraction.ScanFiles` | main.py:40-74 | the scan never fails for a mapped subdirectory and fails only with `KeyError(subdir)`; each collected pair names an `.stl` file of the listing, and there are at most as many pairs as names |
| `Extraction.ConvertTimes` | main.py:80-86 | conversion fails exactly when some captured text has no digits; otherwise it keeps every file in order, each with the seconds its text converts to |
| `Extraction.NoScanWithoutRegex` | main.py:62-74 | for an unmapped subdirectory, a scan that does not raise collects no pair |
| `Extraction.ScanConvertsToExpected` | main.py:79-88 | for a mapped subdirectory, scanning then converting gives the reference entries: every `.stl` name in listing order, with the closed-form seconds of the first annotation in its G-code file |
| `Extraction.ProcessStlFiles` | main.py:35-88 | `process_stl_files` for "Black" or "Orange" succeeds and equals the reference entries; for any subdirectory its only error is `KeyError(subdir)` |
| `Extraction.ExpectedEntriesAppend` | main.py:40-74 | each name contributes on its own: the entries of a concatenated listing are the entries of the parts, in order |
| `Extraction.ExpectedEntriesOfName` | main.py:40-74 | one name yields at most one entry: that of the first annotation in its G-code file, and none when there is no annotation or the name is not an `.stl` file |
| `Index.CollectAll` | main.py:92-97 | every collected triple's subdirectory is a configured one; when every configured subdirectory has a pattern nothing is raised, and otherwise the only error is a `KeyError` for a configured subdirectory |
| `Index.CollectConfigured` | main.py:14-18 | for the configured printers the triples are those of "Black" followed by those of "Orange", each from its reference entries |
| `Index.AddRecord` | main.py:103-107 | adding a triple appends `[file, time]` to its subdirectory's list and leaves every other list alone; a new subdirectory becomes the last key |
| `Index.GroupBySubdir` | main.py:102-107 | keys come in first-seen order, and each key's list is exactly that subdirectory's `[file, time]` pairs in their original order |
| `Index.FirstSeenIsKeySet` | main.py:102-107 | keys are distinct, and a subdirectory is a key exactly when some triple has it |
| `Index.EntriesOfCount` | main.py:103-107 | the list under a key has exactly one entry per triple of that subdirectory |
| `Index.InsertByTimePermutes` | main.py:111 | inserting an entry adds exactly that entry and loses none |
| `Index.InsertByTimeSorted` | main.py:111 | inserting into a list sorted longest-first keeps it sorted |
| `Index.SortByTimeDesc` | main.py:110-111 | the sorted list is a permutation of the original and non-increasing in time |
| `Index.SortByTimeDescStable` | main.py:111 | entries of equal time keep their original relative order; `list.sort` is stable also with `reverse=True` |
| `Index.SortGroups` | main.py:110-111 | sorting keeps the keys and their order, and turns every list into a non-increasing permutation of itself |
| `Index.PrintTimeIndex` | main.py:102-111 | the finished index has keys in first-seen order, and each key's list is a time-sorted permutation of that subdirectory's pairs, namely the stable descending sort of them |
| `TimeSplit.Decompose` | main.py:123-127 | hours are in 0..23 and minutes in 0..59, and the split stands for at most `time` seconds and falls short of it by less than a minute |
| `TimeSplit.DecomposeUnique` | main.py:123-127 | that split is the only in-range one within a minute below `time` |
| `TimeSplit.DecomposeFields` | main.py:123-127 | days is `time` div 86400, hours is (`time` div 3600) mod 24, and minutes is (`time` div 60) mod 60 |
| `TimeSplit.DecomposeExact` | utils.py:27-32 | days*86400 + hours*3600 + minutes*60 + (`time` mod 60) is `time` |
| `TimeSplit.DecomposeWholeMinutes` | main.py:123-127 | the split stands for `time` rounded down to a whole minute |
| `TimeSplit.DecomposeMonotone` | main.py:122-127 | a longer time never shows as a shorter split |
| `TimeSplit.DisplayTotalPrintTime` | utils.py:27-32 | the statement-by-statement split gives the in-range triple that, with `time` mod 60 added back, is exactly `time`, and it equals `Decompose(time)` |
| `TimeSplit.DisplayStlPrintTime` | utils.py:37-42 | it computes the same triple as `display_total_print_time` and the main.py report, namely `Decompose(time)` |
| `Report.ReportRowsIsLookup` | main.py:114-117 | with distinct keys, the rows printed for `current` are those of the one list stored under it |
| `Report.ReportOfIndex` | main.py:114-132 | the report for `current` shows exactly the sorted pairs of `current`: row k is the k-th `[stl_file, time]` of the descending sort of its triples, with that time split into days, hours and minutes; so one row per triple, every row names `current`, and the shown durations never increase |
| `Report.PassKey` | main.py:103-115 | the key the report loop compares is the subdirectory of some collected triple, or the printer just processed when nothing has been collected |
| `Report.PassRowsAsWritten` | main.py:92-132 | every row a pass prints, as written, names a subdirectory that some collected triple has |
| `Report.PassRows` | main.py:92-132 | the intended table of a pass: exactly the rows of the printer just processed, in the order of the descending sort of its triples, each showing its file and its split time; one row per triple, all naming it, durations never increasing |
| `Report.PassPrints` | main.py:92-132 | a pass that found files prints its own table; a pass that found none prints the table of the last earlier triple's printer, or nothing if there is none |
| `Report.ReprintsPreviousPrinter` | main.py:103-115 | with one "Black" triple and no "Orange" files, the "Orange" pass prints Black's row, while its own table is empty |
| `Utils.FilterStlFiles` | utils.py:51-52 | every kept name ends in ".stl", each ".stl" name is kept as often as it is listed, and the result is a subsequence of the listing |
| `Utils.FilterStlFilesAppend` | utils.py:51-52 | filtering distributes over concatenation, so the original order is kept |
| `Utils.TimesFor` | utils.py:56 | the comprehension is empty exactly when no triple names the file; otherwise its first time is that of the first triple naming the file |
| `Utils.GetFilePrintTime` | utils.py:55-62 | it raises "not found" exactly when no triple names the file and never returns a default; otherwise it returns the time of the first triple naming the file |
| `Utils.GetFilePrintTimeIgnoresLater` | utils.py:56-61 | appending triples after an existing match never changes the result |
| `Utils.GetFilePrintTimeIgnoresSubdir` | utils.py:56 | the subdirectory component plays no part in the lookup |

## Left out

- Running PrusaSlicer and checking whether the G-code file exists (main.py:47-59) are process and filesystem I/O. The model starts from the lines of the G-code file, given by `read`.
- Opening the G-code file (main.py:62) is I/O. A missing file is not modelled.
- `calculate_bounding_box` (main.py:137-156, utils.py:5-24) is left out. It loads a mesh with numpy-stl and uses floating-point min/max.
- The rectpack packing (main.py:172-194) is left out. `newPacker` and `SORT_RATIO` are third-party code that is not visible here, and they work on floating-point sizes.
- Console output is left out (main.py:99, 113-134 apart from the split itself; utils.py:34, 44, 47-48). Only the integers and the choice of rows are modelled.
- The `if not time_regex` branch (main.py:66-68) is left out. A compiled pattern is always truthy, so the branch cannot run.
- The order of `os.listdir` and the module-level sequencing of the script are left out. Listings are given sequences. The per-iteration regrouping inside the `config_map` loop is modelled by applying `PrintTimeIndex` to the triples collected so far (`Report.PassRowsAsWritten`).
- Text.IsDigit: Python's `\d` and `int` also accept non-ASCII decimal digits. The model accepts only '0'..'9'.
- Extraction.LastDot: `os.path.splitext` also looks for path separators. A name returned by `os.listdir` contains none, so they are not modelled.
- test_main.py is not modelled. It imports `get_print_batches`, which main.py does not define, and it asserts nothing.

## Findings

| source | as written | input that shows it | evidently intended | confidence | as-written member | corrected member |
|---|---|---|---|---|---|---|
| main.py:103-115 | the grouping loop `for current_subdir, stl_file, time in all_print_times` rebinds `current_subdir`, so the report compares against the subdirectory of the last collected triple | "Black" yields `("a.stl", 60)` and "Orange" yields no file: the "Orange" pass prints Black's table again (`Report.ReprintsPreviousPrinter`) | each pass prints the table of the printer just processed, which is empty when it found nothing | not executed; high, the rebinding is plain in the text | `Report.PassRowsAsWritten` | `Report.PassRows` |

=== FILE: annotation.dfy ===
/** The estimated-time annotation the slicer writes into a G-code file, and
    the two compiled patterns that find it:
    `; estimated printing time (<mode> mode) = (\d+h \d+m \d+s)`.
    A pattern is represented by its literal prefix; `search` is leftmost. */
module Annotation {
  import opened Results
  import opened Text

  /** Literal part of the pattern for the "Black" printer (silent mode). */
  const SilentModePrefix: string := "; estimated printing time (silent mode) = "
  /** Literal part of the pattern for the "Orange" printer (normal mode). */
  const NormalModePrefix: string := "; estimated printing time (normal mode) = "

  /** The three numerals of a match of `\d+h \d+m \d+s`. */
  datatype Hms = Hms(hours: string, minutes: string, seconds: string)
  {
    predicate Valid() {
      IsNumeral(hours) && IsNumeral(minutes) && IsNumeral(seconds)
    }

    /** The text of capture group 1: `<h>h <m>m <s>s`. */
    function Capture(): string {
      hours + "h " + minutes + "m " + seconds + "s"
    }
  }

  /** Matches `\d+` then `unit` at the start of `s`, yielding the numeral and
      the text after the unit. Greedy `\d+` cannot backtrack here because the
      unit is not a digit. */
  function MatchField(s: string, unit: char): (r: Option<(string, string)>)
    ensures r.Some? ==> IsNumeral(r.value.0) && s == r.value.0 + [unit] + r.value.1
  {
    var n := DigitPrefixLen(s);
    if 0 < n < |s| && s[n] == unit then
      assert s == s[..n] + [unit] + s[n + 1..];
      Some((s[..n], s[n + 1..]))
    else None
  }

  /** A field is always recognised, and recognised uniquely. */
  lemma MatchFieldExact(d: string, unit: char, rest: string)
    requires IsNumeral(d) && !IsDigit(unit)
    ensures MatchField(d + [unit] + rest, unit) == Some((d, rest))
  {
    var s := d + [unit] + rest;
    assert s == d + ([unit] + rest);
    DigitPrefixLenOfNumeral(d, [unit] + rest);
    assert s[..|d|] == d;
    assert s[|d| + 1..] == rest;
  }

  /** The capture text split at the points where `MatchHms` consumes it. */
  lemma CaptureSplit(f: Hms, s3: string)
    ensures f.Capture() + s3
         == f.hours + ['h'] + (" " + (f.minutes + ['m'] + (" " + (f.seconds + ['s'] + s3))))
  {
    var t2 := f.seconds + ['s'] + s3;
    var t1 := f.minutes + ['m'] + (" " + t2);
    assert f.Capture() + s3 == f.hours + "h " + (f.minutes + "m " + (f.seconds + "s" + s3));
    assert "h " + t1 == ['h'] + (" " + t1);
    assert "m " + t2 == ['m'] + (" " + t2);
  }

  /** `\d+h \d+m \d+s` anchored at the start of `s`. */
  function MatchHms(s: string): (r: Option<Hms>)
    ensures r.Some? ==> r.value.Valid() && StartsWith(s, r.value.Capture())
  {
    match MatchField(s, 'h')
    case None => None
    case Some((h, s1)) =>
      if !StartsWith(s1, " ") then None
      else
        match MatchField(s1[1..], 'm')
        case None => None
        case Some((m, s2)) =>
          if !StartsWith(s2, " ") then None
          else
            match MatchField(s2[1..], 's')
            case None => None
            case Some((sec, s3)) =>
              var f := Hms(h, m, sec);
              assert s1 == " " + s1[1..];
              assert s2 == " " + s2[1..];
              CaptureSplit(f, s3);
              assert s == f.Capture() + s3;
              assert s[..|f.Capture()|] == f.Capture();
              Some(f)
  }

  /** Every well-formed duration text is matched, and yields exactly its own
      numerals whatever follows it. */
  lemma MatchHmsCapture(f: Hms, rest: string)
    requires f.Valid()
    ensures MatchHms(f.Capture() + rest) == Some(f)
  {
    var s2 := " " + (f.seconds + ['s'] + rest);
    var s1 := " " + (f.minutes + ['m'] + s2);
    CaptureSplit(f, rest);
    MatchFieldExact(f.hours, 'h', s1);
    assert s1[..1] == " " && s1[1..] == f.minutes + ['m'] + s2;
    MatchFieldExact(f.minutes, 'm', s2);
    assert s2[..1] == " " && s2[1..] == f.seconds + ['s'] + rest;
    MatchFieldExact(f.seconds, 's', rest);
  }

  /** The pattern with literal part `prefix` matches `line` at position `i`. */
  predicate MatchesAt(line: string, prefix: string, i: nat) {
    i <= |line| && StartsWith(line[i..], prefix) && MatchHms(line[i + |prefix|..]).Some?
  }

  /** The capture of the match at `i`. */
  function CaptureAt(line: string, prefix: string, i: nat): Hms
    requires MatchesAt(line, prefix, i)
  {
    MatchHms(line[i + |prefix|..]).value
  }

  /** No match of the pattern starts in positions `lo .. hi-1`. */
  predicate NoMatchIn(line: string, prefix: string, lo: nat, hi: nat) {
    forall k :: lo <= k < hi ==> !MatchesAt(line, prefix, k)
  }

  /** `j` is the leftmost match position at or after `i`. */
  predicate LeftmostFrom(line: string, prefix: string, i: nat, j: nat) {
    i <= j <= |line| && MatchesAt(line, prefix, j) && NoMatchIn(line, prefix, i, j)
  }

  /** The scan of `pattern.search` from position `i` on. */
  function SearchFrom(line: string, prefix: string, i: nat): (r: Option<Hms>)
    requires i <= |line|
    ensures r.Some? ==> r.value.Valid()
    decreases |line| - i
  {
    if MatchesAt(line, prefix, i) then Some(CaptureAt(line, prefix, i))
    else if i == |line| then None
    else SearchFrom(line, prefix, i + 1)
  }

  /** `pattern.search(line)`: the capture of the leftmost match, if any. */
  function Search(line: string, prefix: string): (r: Option<Hms>)
    ensures r.Some? ==> r.value.Valid()
  {
    SearchFrom(line, prefix, 0)
  }

  lemma {:induction false} SearchFromLeftmost(line: string, prefix: string, i: nat)
    requires i <= |line|
    ensures SearchFrom(line, prefix, i).None? <==> NoMatchIn(line, prefix, i, |line| + 1)
    ensures SearchFrom(line, prefix, i).Some? ==>
              exists j :: LeftmostFrom(line, prefix, i, j)
                          && SearchFrom(line, prefix, i).value == CaptureAt(line, prefix, j)
    decreases |line| - i
  {
    if MatchesAt(line, prefix, i) {
      assert LeftmostFrom(line, prefix, i, i);
    } else if i < |line| {
      SearchFromLeftmost(line, prefix, i + 1);
      var r := SearchFrom(line, prefix, i + 1);
      if r.Some? {
        var j :| LeftmostFrom(line, prefix, i + 1, j) && r.value == CaptureAt(line, prefix, j);
        assert LeftmostFrom(line, prefix, i, j);
      }
    }
  }

  /** `search` finds nothing exactly when the pattern matches at no position;
      otherwise it yields the capture of the leftmost match, which is a
      well-formed duration. */
  lemma SearchLeftmost(line: string, prefix: string)
    ensures Search(line, prefix).None? <==> NoMatchIn(line, prefix, 0, |line| + 1)
    ensures Search(line, prefix).Some? ==>
              exists j :: LeftmostFrom(line, prefix, 0, j)
                          && Search(line, prefix).value == CaptureAt(line, prefix, j)
    ensures Search(line, prefix).Some? ==> Search(line, prefix).value.Valid()
  {
    SearchFromLeftmost(line, prefix, 0);
  }

  /** A line that is the annotation itself (anything may follow it) is found,
      and its capture is the duration written after the prefix. */
  lemma SearchFindsAnnotation(prefix: string, f: Hms, rest: string)
    requires f.Valid()
    ensures Search(prefix + f.Capture() + rest, prefix) == Some(f)
  {
    var line := prefix + f.Capture() + rest;
    assert line[0..] == line;
    assert StartsWith(line, prefix) by { assert line[..|prefix|] == prefix; }
    assert line[|prefix|..] == f.Capture() + rest;
    MatchHmsCapture(f, rest);
    assert MatchesAt(line, prefix, 0);
  }
}

=== FILE: duration.dfy ===
/** Turning the captured duration text into seconds:
    `int(reduce(lambda x, y: x * 60 + y, map(int, re.findall(r"\d+", time))))`. */
module Duration {
  import opened Results
  import opened Text
  import opened Annotation

  function Pow60(k: nat): nat
  {
    if k == 0 then 1 else 60 * Pow60(k - 1)
  }

  /** Reference value of `ds` read as base-60 digits, most significant first. */
  function Base60Value(ds: seq<nat>): nat
    decreases |ds|
  {
    if |ds| == 0 then 0 else ds[0] * Pow60(|ds| - 1) + Base60Value(ds[1..])
  }

  /** The accumulator loop of `functools.reduce` with `lambda x, y: x * 60 + y`. */
  function FoldFrom(acc: nat, rest: seq<nat>): nat
    decreases |rest|
  {
    if |rest| == 0 then acc else FoldFrom(acc * 60 + rest[0], rest[1..])
  }

  lemma {:induction false} FoldFromValue(acc: nat, rest: seq<nat>)
    ensures FoldFrom(acc, rest) == acc * Pow60(|rest|) + Base60Value(rest)
    decreases |rest|
  {
    if |rest| > 0 {
      var n := |rest|;
      var p := Pow60(n - 1);
      FoldFromValue(acc * 60 + rest[0], rest[1..]);
      assert (acc * 60 + rest[0]) * p == acc * (60 * p) + rest[0] * p;
    }
  }

  /** `reduce(lambda x, y: x * 60 + y, ds)`: the first element seeds the
      accumulator; an empty sequence raises. The result is the base-60 value. */
  function Reduce60(ds: seq<nat>): (r: Option<nat>)
    ensures r.None? <==> |ds| == 0
    ensures r.Some? ==> r.value == Base60Value(ds)
  {
    if |ds| == 0 then None
    else
      FoldFromValue(ds[0], ds[1..]);
      Some(FoldFrom(ds[0], ds[1..]))
  }

  lemma Reduce60Single(d: nat)
    ensures Reduce60([d]) == Some(d)
  {
  }

  /** Horner step: appending a digit multiplies the value so far by 60. */
  lemma {:induction false} Reduce60Snoc(ds: seq<nat>, d: nat)
    requires |ds| > 0
    ensures Reduce60(ds + [d]) == Some(60 * Reduce60(ds).value + d)
  {
    FoldFromSnoc(ds[0], ds[1..], d);
    assert (ds + [d])[1..] == ds[1..] + [d];
  }

  lemma {:induction false} FoldFromSnoc(acc: nat, rest: seq<nat>, d: nat)
    ensures FoldFrom(acc, rest + [d]) == 60 * FoldFrom(acc, rest) + d
    decreases |rest|
  {
    if |rest| == 0 {
      assert rest + [d] == [d];
    } else {
      assert (rest + [d])[1..] == rest[1..] + [d];
      FoldFromSnoc(acc * 60 + rest[0], rest[1..], d);
    }
  }

  /** The three-field case used for `<h>h <m>m <s>s`. */
  lemma Reduce60Three(h: nat, m: nat, s: nat)
    ensures Reduce60([h, m, s]) == Some(h * 3600 + m * 60 + s)
  {
    Reduce60Snoc([h], m);
    assert [h] + [m] == [h, m];
    Reduce60Snoc([h, m], s);
    assert [h, m] + [s] == [h, m, s];
  }

  /** `[int(x) for x in runs]`. */
  function Ints(runs: seq<string>): (vs: seq<nat>)
    requires forall k :: 0 <= k < |runs| ==> IsNumeral(runs[k])
    ensures |vs| == |runs|
    ensures forall k :: 0 <= k < |runs| ==> vs[k] == DecimalValue(runs[k])
  {
    seq(|runs|, k requires 0 <= k < |runs| => DecimalValue(runs[k]))
  }

  /** The seconds a duration text stands for, as `main.py` computes them;
      `None` models the TypeError `reduce` raises when the text has no digits. */
  function ParseDuration(time: string): (r: Option<nat>)
    ensures r.None? <==> DigitsOf(time) == ""
  {
    var runs := DigitRuns(time);
    DigitRunsCoverDigits(time);
    assert |runs| == 0 <==> Concat(runs) == "" by {
      if |runs| > 0 {
        assert Concat(runs) == runs[0] + Concat(runs[1..]);
      }
    }
    Reduce60(Ints(runs))
  }

  /** Closed form of the annotation's duration. */
  function Seconds(f: Hms): nat
    requires f.Valid()
  {
    DecimalValue(f.hours) * 3600 + DecimalValue(f.minutes) * 60 + DecimalValue(f.seconds)
  }

  /** A numeral, a non-digit unit, and whatever follows. */
  lemma DigitRunsField(d: string, unit: char, tail: string)
    requires IsNumeral(d) && !IsDigit(unit)
    ensures DigitRuns(d + [unit] + tail) == [d] + DigitRuns(tail)
  {
    assert d + [unit] + tail == d + ([unit] + tail);
    DigitRunsAfterNumeral(d, [unit] + tail);
    DigitRunsSkip(unit, tail);
  }

  /** `re.findall(r"\d+", …)` on a capture yields its three numerals. */
  lemma DigitRunsCapture(f: Hms)
    requires f.Valid()
    ensures DigitRuns(f.Capture()) == [f.hours, f.minutes, f.seconds]
  {
    var t2 := f.seconds + ['s'] + "";
    var t1 := f.minutes + ['m'] + (" " + t2);
    CaptureSplit(f, "");
    assert f.Capture() + "" == f.Capture();
    DigitRunsField(f.hours, 'h', " " + t1);
    DigitRunsSkip(' ', t1);
    DigitRunsField(f.minutes, 'm', " " + t2);
    DigitRunsSkip(' ', t2);
    DigitRunsField(f.seconds, 's', "");
  }

  /** The captured text of every match converts to h*3600 + m*60 + s. */
  lemma ParseCapture(f: Hms)
    requires f.Valid()
    ensures ParseDuration(f.Capture()) == Some(Seconds(f))
  {
    DigitRunsCapture(f);
    var runs := DigitRuns(f.Capture());
    assert Ints(runs) == [DecimalValue(f.hours), DecimalValue(f.minutes), DecimalValue(f.seconds)];
    Reduce60Three(DecimalValue(f.hours), DecimalValue(f.minutes), DecimalValue(f.seconds));
  }

  /** What the slicer writes for `h`, `m`, `s` reads back as h*3600 + m*60 + s. */
  lemma DurationOfWrittenTime(h: nat, m: nat, s: nat)
    ensures ParseDuration(Hms(DecimalText(h), DecimalText(m), DecimalText(s)).Capture())
         == Some(h * 3600 + m * 60 + s)
  {
    var f := Hms(DecimalText(h), DecimalText(m), DecimalText(s));
    assert f.Valid();
    ParseCapture(f);
    DecimalRoundTrip(h);
    DecimalRoundTrip(m);
    DecimalRoundTrip(s);
    assert Seconds(f) == h * 3600 + m * 60 + s;
  }
}

=== FILE: extraction.dfy ===
/** `process_stl_files` (main.py): for every `.stl` name in a printer
    subdirectory, find the first estimated-time annotation in its G-code file
    and convert it to seconds. The directory listing and the G-code lines are
    parameters: `listing` is what `os.listdir` returned, and `read(g)` is the
    sequence of lines of the G-code file named `g` in that subdirectory. */
module Extraction {
  import opened Results
  import opened Text
  import opened Annotation
  import opened Duration

  /** One `(stl_file, match.group(1))` pair collected by the scan. */
  datatype RawTime = RawTime(file: string, text: string)

  /** One `(stl_file, seconds)` pair returned by `process_stl_files`. */
  datatype Entry = Entry(file: string, time: nat)

  /** `subdir_map`: the annotation pattern of each printer subdirectory,
      represented by the literal part of the pattern. */
  function TimeRegexFor(subdir: string): (r: Option<string>)
    ensures r.Some? <==> subdir in {"Black", "Orange"}
    ensures subdir == "Black" ==> r == Some(SilentModePrefix)
    ensures subdir == "Orange" ==> r == Some(NormalModePrefix)
  {
    if subdir == "Black" then Some(SilentModePrefix)
    else if subdir == "Orange" then Some(NormalModePrefix)
    else None
  }

  /** The first present value of `xs`: the loop that stops at the first hit. */
  function FirstSome<T>(xs: seq<Option<T>>): (r: Option<T>)
    ensures r.None? <==> forall k :: 0 <= k < |xs| ==> xs[k].None?
    ensures r.Some? ==> exists k :: 0 <= k < |xs| && xs[k] == r
                           && forall j :: 0 <= j < k ==> xs[j].None?
    decreases |xs|
  {
    if |xs| == 0 then None
    else if xs[0].Some? then xs[0]
    else
      var r := FirstSome(xs[1..]);
      assert forall k :: 1 <= k < |xs| ==> xs[k] == xs[1..][k - 1];
      assert r.Some? ==> exists k :: 0 <= k < |xs| && xs[k] == r
                           && forall j :: 0 <= j < k ==> xs[j].None? by {
        if r.Some? {
          var k :| 0 <= k < |xs| - 1 && xs[1..][k] == r && forall j :: 0 <= j < k ==> xs[1..][j].None?;
          assert xs[k + 1] == r;
        }
      }
      r
  }

  /** The search result of each line, in order. */
  function Searches(lines: seq<string>, prefix: string): (rs: seq<Option<Hms>>)
    ensures |rs| == |lines|
    ensures forall k :: 0 <= k < |lines| ==> rs[k] == Search(lines[k], prefix)
  {
    seq(|lines|, k requires 0 <= k < |lines| => Search(lines[k], prefix))
  }

  /** The capture of the first line on which the pattern is found. */
  function FirstMatch(lines: seq<string>, prefix: string): (r: Option<Hms>)
    ensures r.Some? ==> r.value.Valid()
  {
    var rs := Searches(lines, prefix);
    var r := FirstSome(rs);
    assert r.Some? ==> r.value.Valid() by {
      if r.Some? {
        var k :| 0 <= k < |rs| && rs[k] == r;
      }
    }
    r
  }

  /** First-match semantics: the result is the capture of a matching line
      with no match on any line before it, and there is none exactly when no
      line matches. */
  lemma FirstMatchSpec(lines: seq<string>, prefix: string)
    ensures FirstMatch(lines, prefix).None? <==> forall k :: 0 <= k < |lines| ==> Search(lines[k], prefix).None?
    ensures FirstMatch(lines, prefix).Some? ==>
              exists k :: 0 <= k < |lines| && Search(lines[k], prefix) == FirstMatch(lines, prefix)
                          && forall j :: 0 <= j < k ==> Search(lines[j], prefix).None?
  {
  }

  /** Once a value is present, the values after it are never consulted. */
  lemma {:induction false} FirstSomeIgnoresLater<T>(a: seq<Option<T>>, b: seq<Option<T>>)
    requires FirstSome(a).Some?
    ensures FirstSome(a + b) == FirstSome(a)
    decreases |a|
  {
    assert (a + b)[0] == a[0];
    if a[0].None? {
      assert (a + b)[1..] == a[1..] + b;
      FirstSomeIgnoresLater(a[1..], b);
    }
  }

  /** Absent values are passed over. */
  lemma {:induction false} FirstSomeSkipsMisses<T>(a: seq<Option<T>>, b: seq<Option<T>>)
    requires FirstSome(a).None?
    ensures FirstSome(a + b) == FirstSome(b)
    decreases |a|
  {
    if |a| == 0 {
      assert a + b == b;
    } else {
      assert (a + b)[0] == a[0];
      assert (a + b)[1..] == a[1..] + b;
      FirstSomeSkipsMisses(a[1..], b);
    }
  }

  lemma SearchesAppend(a: seq<string>, b: seq<string>, prefix: string)
    ensures Searches(a + b, prefix) == Searches(a, prefix) + Searches(b, prefix)
  {
    var sa, sb, sab := Searches(a, prefix), Searches(b, prefix), Searches(a + b, prefix);
    forall k | 0 <= k < |sab|
      ensures sab[k] == (sa + sb)[k]
    {
      if k < |a| {
        assert (a + b)[k] == a[k];
      } else {
        assert (a + b)[k] == b[k - |a|];
      }
    }
  }

  /** Once a line has matched, the lines after it are never consulted. */
  lemma FirstMatchIgnoresLater(a: seq<string>, b: seq<string>, prefix: string)
    requires FirstMatch(a, prefix).Some?
    ensures FirstMatch(a + b, prefix) == FirstMatch(a, prefix)
  {
    SearchesAppend(a, b, prefix);
    FirstSomeIgnoresLater(Searches(a, prefix), Searches(b, prefix));
  }

  /** Lines without a match are passed over. */
  lemma FirstMatchSkipsMisses(a: seq<string>, b: seq<string>, prefix: string)
    requires FirstMatch(a, prefix).None?
    ensures FirstMatch(a + b, prefix) == FirstMatch(b, prefix)
  {
    SearchesAppend(a, b, prefix);
    FirstSomeSkipsMisses(Searches(a, prefix), Searches(b, prefix));
  }

  /** The loop over the lines of one G-code file: the text captured on the
      first matching line, if any. The pattern is looked up in `subdir_map`
      inside the loop, so an unmapped subdirectory raises only when the file
      has a line to scan. */
  function ScanGcode(subdir: string, lines: seq<string>): (r: Result<Option<string>>)
    ensures r.Err? <==> |lines| > 0 && TimeRegexFor(subdir).None?
    ensures r.Err? ==> r.error == KeyError(subdir)
    ensures r.Ok? && TimeRegexFor(subdir).None? ==> r.value.None?
    ensures r.Ok? && TimeRegexFor(subdir).Some? ==>
              var m := FirstMatch(lines, TimeRegexFor(subdir).value);
              && (r.value.None? <==> m.None?)
              && (r.value.Some? ==> r.value.value == m.value.Capture())
  {
    if |lines| == 0 then Ok(None)
    else
      match TimeRegexFor(subdir)
      case None => Err(KeyError(subdir))
      case Some(prefix) =>
        match FirstMatch(lines, prefix)
        case None => Ok(None)
        case Some(f) => Ok(Some(f.Capture()))
  }

  /** All characters are dots. */
  predicate AllDots(s: string) {
    forall k :: 0 <= k < |s| ==> s[k] == '.'
  }

  /** `str.rfind(".")`. */
  function LastDot(s: string): (r: Option<nat>)
    ensures r.Some? ==> r.value < |s| && s[r.value] == '.'
                        && forall k :: r.value < k < |s| ==> s[k] != '.'
    ensures r.None? ==> forall k :: 0 <= k < |s| ==> s[k] != '.'
    decreases |s|
  {
    if |s| == 0 then None
    else if s[|s| - 1] == '.' then Some(|s| - 1)
    else
      var r := LastDot(s[..|s| - 1]);
      assert forall k :: 0 <= k < |s| - 1 ==> s[..|s| - 1][k] == s[k];
      r
  }

  /** `os.path.splitext(name)[0]` for a bare file name: the text before the
      last dot, unless everything before that dot is dots (a leading-dot name
      has no extension). */
  function SplitExtRoot(name: string): string {
    match LastDot(name)
    case None => name
    case Some(i) => if AllDots(name[..i]) then name else name[..i]
  }

  /** The G-code file name derived from an STL file name:
      `os.path.splitext(stl_file)[0] + "_gcode.gcode"`. */
  function GcodeName(stlFile: string): (g: string)
    ensures EndsWith(stlFile, ".stl") ==>
              var stem := stlFile[..|stlFile| - 4];
              g == (if AllDots(stem) then stlFile else stem) + "_gcode.gcode"
  {
    assert EndsWith(stlFile, ".stl") ==> stlFile[|stlFile| - 4] == '.' by {
      if EndsWith(stlFile, ".stl") {
        assert stlFile[|stlFile| - 4..] == ".stl";
        assert forall k :: |stlFile| - 4 < k < |stlFile| ==> stlFile[k] == stlFile[|stlFile| - 4..][k - (|stlFile| - 4)];
      }
    }
    SplitExtRoot(stlFile) + "_gcode.gcode"
  }

  /** The loop over the directory listing: one pair per `.stl` file whose
      G-code has an annotation, in listing order. */
  function ScanFiles(subdir: string, listing: seq<string>, read: string -> seq<string>): (r: Result<seq<RawTime>>)
    ensures TimeRegexFor(subdir).Some? ==> r.Ok?
    ensures r.Err? ==> r.error == KeyError(subdir)
    ensures r.Ok? ==> |r.value| <= |listing|
    ensures r.Ok? ==> forall k :: 0 <= k < |r.value| ==>
                        EndsWith(r.value[k].file, ".stl") && r.value[k].file in listing
    decreases |listing|
  {
    if |listing| == 0 then Ok([])
    else
      var name := listing[0];
      if !EndsWith(name, ".stl") then ScanFiles(subdir, listing[1..], read)
      else
        match ScanGcode(subdir, read(GcodeName(name)))
        case Err(e) => Err(e)
        case Ok(None) => ScanFiles(subdir, listing[1..], read)
        case Ok(Some(text)) =>
          match ScanFiles(subdir, listing[1..], read)
          case Err(e) => Err(e)
          case Ok(rest) => Ok([RawTime(name, text)] + rest)
  }

  /** The list comprehension that turns every captured text into seconds. */
  function ConvertTimes(raw: seq<RawTime>): (r: Result<seq<Entry>>)
    ensures r.Err? <==> exists k :: 0 <= k < |raw| && ParseDuration(raw[k].text).None?
    ensures r.Err? ==> r.error == EmptyReduce
    ensures r.Ok? ==> |r.value| == |raw|
    ensures r.Ok? ==> forall k :: 0 <= k < |raw| ==>
                        r.value[k].file == raw[k].file
                        && ParseDuration(raw[k].text) == Some(r.value[k].time)
    decreases |raw|
  {
    if |raw| == 0 then Ok([])
    else
      match ParseDuration(raw[0].text)
      case None => Err(EmptyReduce)
      case Some(t) =>
        match ConvertTimes(raw[1..])
        case Err(e) =>
          assert exists k :: 0 <= k < |raw| && ParseDuration(raw[k].text).None? by {
            var k :| 0 <= k < |raw| - 1 && ParseDuration(raw[1..][k].text).None?;
            assert raw[k + 1] == raw[1..][k];
          }
          Err(e)
        case Ok(rest) =>
          assert forall k :: 1 <= k < |raw| ==> raw[k] == raw[1..][k - 1];
          Ok([Entry(raw[0].file, t)] + rest)
  }

  /** Reference meaning of `process_stl_files` for a mapped subdirectory:
      each `.stl` name, in listing order, contributes the closed-form seconds
      of the first annotation in its G-code file, or nothing if there is none. */
  function ExpectedEntries(prefix: string, listing: seq<string>, read: string -> seq<string>): seq<Entry>
    decreases |listing|
  {
    if |listing| == 0 then []
    else
      var name := listing[0];
      var rest := ExpectedEntries(prefix, listing[1..], read);
      if EndsWith(name, ".stl") then
        match FirstMatch(read(GcodeName(name)), prefix)
        case Some(f) => [Entry(name, Seconds(f))] + rest
        case None => rest
      else rest
  }

  /** `process_stl_files(subdir, config_file)`. */
  function ProcessStlFiles(subdir: string, listing: seq<string>, read: string -> seq<string>): (r: Result<seq<Entry>>)
    ensures TimeRegexFor(subdir).Some? ==>
              r == Ok(ExpectedEntries(TimeRegexFor(subdir).value, listing, read))
    ensures r.Err? ==> r.error == KeyError(subdir)
  {
    match ScanFiles(subdir, listing, read)
    case Err(e) => Err(e)
    case Ok(raw) =>
      if TimeRegexFor(subdir).Some? then
        ScanConvertsToExpected(subdir, listing, read);
        ConvertTimes(raw)
      else
        NoScanWithoutRegex(subdir, listing, read);
        ConvertTimes(raw)
  }

  /** With no pattern for the subdirectory, a successful scan found nothing. */
  lemma {:induction false} NoScanWithoutRegex(subdir: string, listing: seq<string>, read: string -> seq<string>)
    requires TimeRegexFor(subdir).None?
    requires ScanFiles(subdir, listing, read).Ok?
    ensures ScanFiles(subdir, listing, read).value == []
    decreases |listing|
  {
    if |listing| > 0 {
      NoScanWithoutRegex(subdir, listing[1..], read);
    }
  }

  lemma {:induction false} ScanConvertsToExpected(subdir: string, listing: seq<string>, read: string -> seq<string>)
    requires TimeRegexFor(subdir).Some?
    ensures ScanFiles(subdir, listing, read).Ok?
    ensures ConvertTimes(ScanFiles(subdir, listing, read).value)
         == Ok(ExpectedEntries(TimeRegexFor(subdir).value, listing, read))
    decreases |listing|
  {
    if |listing| > 0 {
      var prefix := TimeRegexFor(subdir).value;
      var name := listing[0];
      ScanConvertsToExpected(subdir, listing[1..], read);
      var rest := ScanFiles(subdir, listing[1..], read).value;
      if EndsWith(name, ".stl") {
        var lines := read(GcodeName(name));
        match FirstMatch(lines, prefix)
        case None =>
        case Some(f) =>
          assert |lines| > 0;
          ParseCapture(f);
          var raw := [RawTime(name, f.Capture())] + rest;
          assert ScanFiles(subdir, listing, read) == Ok(raw);
          assert raw[1..] == rest;
      }
    }
  }

  /** Each name contributes on its own: the entries of a listing are the
      entries of its parts, in order. */
  lemma {:induction false} ExpectedEntriesAppend(prefix: string, a: seq<string>, b: seq<string>, read: string -> seq<string>)
    ensures ExpectedEntries(prefix, a + b, read)
         == ExpectedEntries(prefix, a, read) + ExpectedEntries(prefix, b, read)
    decreases |a|
  {
    if |a| == 0 {
      assert a + b == b;
    } else {
      assert (a + b)[0] == a[0];
      assert (a + b)[1..] == a[1..] + b;
      ExpectedEntriesAppend(prefix, a[1..], b, read);
    }
  }

  /** A single name yields at most one entry: the seconds of the first
      annotation in its G-code file; no entry when there is no annotation or
      the name is not an `.stl` file. */
  lemma ExpectedEntriesOfName(prefix: string, name: string, read: string -> seq<string>)
    ensures var r := ExpectedEntries(prefix, [name], read);
            var m := FirstMatch(read(GcodeName(name)), prefix);
            && (EndsWith(name, ".stl") && m.Some? ==> r == [Entry(name, Seconds(m.value))])
            && (!EndsWith(name, ".stl") || m.None? ==> r == [])
  {
    assert [name][1..] == [];
  }
}

=== FILE: index.dfy ===
/** The print-time index built at module level in main.py: all
    `(subdir, stl_file, time)` triples of the configured printers, grouped per
    subdirectory in first-seen order (a Python dict keeps insertion order), each
    group sorted by time, longest first. */
module Index {
  import opened Results
  import opened Annotation
  import opened Extraction

  /** One `(current_subdir, stl_file, time)` triple of `all_print_times`. */
  datatype Record = Record(subdir: string, file: string, time: nat)

  /** One `subdir_print_times` item: a key and its `[stl_file, time]` list. */
  datatype Group = Group(subdir: string, entries: seq<Entry>)

  /** The keys of `config_map`, in declaration order. */
  const ConfigSubdirs: seq<string> := ["Black", "Orange"]

  /** `[(current_subdir, stl_file, time) for stl_file, time in print_times]`. */
  function Tag(subdir: string, entries: seq<Entry>): (rs: seq<Record>)
    ensures |rs| == |entries|
    ensures forall k :: 0 <= k < |rs| ==> rs[k] == Record(subdir, entries[k].file, entries[k].time)
  {
    seq(|entries|, k requires 0 <= k < |entries| => Record(subdir, entries[k].file, entries[k].time))
  }

  /** The loop over `config_map` that extends `all_print_times`; `listings(d)`
      is the listing of subdirectory `d` and `readers(d)` reads its G-code files. */
  function CollectAll(subdirs: seq<string>, listings: string -> seq<string>,
                      readers: string -> string -> seq<string>): (r: Result<seq<Record>>)
    ensures r.Ok? ==> forall k :: 0 <= k < |r.value| ==> r.value[k].subdir in subdirs
    ensures (forall k :: 0 <= k < |subdirs| ==> TimeRegexFor(subdirs[k]).Some?) ==> r.Ok?
    ensures r.Err? ==> exists k :: 0 <= k < |subdirs| && r.error == KeyError(subdirs[k])
    decreases |subdirs|
  {
    if |subdirs| == 0 then Ok([])
    else
      match ProcessStlFiles(subdirs[0], listings(subdirs[0]), readers(subdirs[0]))
      case Err(e) => Err(e)
      case Ok(entries) =>
        match CollectAll(subdirs[1..], listings, readers)
        case Err(e) => Err(e)
        case Ok(rest) => Ok(Tag(subdirs[0], entries) + rest)
  }

  /** For the configured printers nothing is raised, and the index holds the
      entries of "Black" followed by those of "Orange". */
  lemma CollectConfigured(listings: string -> seq<string>, readers: string -> string -> seq<string>)
    ensures CollectAll(ConfigSubdirs, listings, readers)
         == Ok(Tag("Black", ExpectedEntries(SilentModePrefix, listings("Black"), readers("Black")))
               + Tag("Orange", ExpectedEntries(NormalModePrefix, listings("Orange"), readers("Orange"))))
  {
    assert ConfigSubdirs[1..] == ["Orange"];
    assert ConfigSubdirs[1..][1..] == [];
    var tail := Tag("Orange", ExpectedEntries(NormalModePrefix, listings("Orange"), readers("Orange")));
    assert tail + [] == tail;
  }

  // ---------------------------------------------------------------------
  // Grouping
  // ---------------------------------------------------------------------

  function Keys(gs: seq<Group>): (ks: seq<string>)
    ensures |ks| == |gs|
    ensures forall i :: 0 <= i < |gs| ==> ks[i] == gs[i].subdir
  {
    seq(|gs|, i requires 0 <= i < |gs| => gs[i].subdir)
  }

  /** The list stored under key `k`, or the empty list when `k` is absent. */
  function Lookup(gs: seq<Group>, k: string): seq<Entry>
    decreases |gs|
  {
    if |gs| == 0 then []
    else if gs[0].subdir == k then gs[0].entries
    else Lookup(gs[1..], k)
  }

  lemma KeysCons(g: Group, gs: seq<Group>)
    ensures Keys([g] + gs) == [g.subdir] + Keys(gs)
  {
  }

  lemma LookupCons(g: Group, gs: seq<Group>, k: string)
    ensures Lookup([g] + gs, k) == if g.subdir == k then g.entries else Lookup(gs, k)
  {
    assert ([g] + gs)[1..] == gs;
  }

  /** One iteration of the grouping loop: append `[stl_file, time]` to the
      list of its subdirectory, creating that list at the end if new. */
  function AddRecord(gs: seq<Group>, r: Record): (gs': seq<Group>)
    ensures Keys(gs') == if r.subdir in Keys(gs) then Keys(gs) else Keys(gs) + [r.subdir]
    ensures forall k :: Lookup(gs', k)
                     == Lookup(gs, k) + (if k == r.subdir then [Entry(r.file, r.time)] else [])
    decreases |gs|
  {
    var e := Entry(r.file, r.time);
    if |gs| == 0 then
      forall k ensures Lookup([Group(r.subdir, [e])], k) == (if k == r.subdir then [e] else []) {
        LookupCons(Group(r.subdir, [e]), [], k);
      }
      [Group(r.subdir, [e])]
    else
      var g := gs[0];
      assert gs == [g] + gs[1..];
      KeysCons(g, gs[1..]);
      if g.subdir == r.subdir then
        var g' := Group(r.subdir, g.entries + [e]);
        KeysCons(g', gs[1..]);
        forall k ensures Lookup([g'] + gs[1..], k) == Lookup(gs, k) + (if k == r.subdir then [e] else []) {
          LookupCons(g', gs[1..], k);
          LookupCons(g, gs[1..], k);
        }
        [g'] + gs[1..]
      else
        var tail := AddRecord(gs[1..], r);
        KeysCons(g, tail);
        assert r.subdir in Keys(gs) <==> r.subdir in Keys(gs[1..]);
        forall k ensures Lookup([g] + tail, k) == Lookup(gs, k) + (if k == r.subdir then [e] else []) {
          LookupCons(g, tail, k);
          LookupCons(g, gs[1..], k);
        }
        [g] + tail
  }

  /** Reference: the `[stl_file, time]` pairs of subdirectory `k`, in order. */
  function EntriesOf(rs: seq<Record>, k: string): seq<Entry>
    decreases |rs|
  {
    if |rs| == 0 then []
    else
      var last := rs[|rs| - 1];
      EntriesOf(rs[..|rs| - 1], k) + (if last.subdir == k then [Entry(last.file, last.time)] else [])
  }

  /** Reference: the subdirectories of `rs` in order of first appearance. */
  function FirstSeen(rs: seq<Record>): seq<string>
    decreases |rs|
  {
    if |rs| == 0 then []
    else
      var seen := FirstSeen(rs[..|rs| - 1]);
      var d := rs[|rs| - 1].subdir;
      if d in seen then seen else seen + [d]
  }

  /** The grouping loop of main.py. Keys come in first-seen order, and the list
      under each key is exactly that subdirectory's pairs in their original
      order. */
  function GroupBySubdir(rs: seq<Record>): (gs: seq<Group>)
    ensures Keys(gs) == FirstSeen(rs)
    ensures forall k :: Lookup(gs, k) == EntriesOf(rs, k)
    decreases |rs|
  {
    if |rs| == 0 then []
    else AddRecord(GroupBySubdir(rs[..|rs| - 1]), rs[|rs| - 1])
  }

  predicate Distinct(ks: seq<string>) {
    forall i, j :: 0 <= i < j < |ks| ==> ks[i] != ks[j]
  }

  /** Some record belongs to subdirectory `d`. */
  predicate HasSubdir(rs: seq<Record>, d: string) {
    exists k :: 0 <= k < |rs| && rs[k].subdir == d
  }

  /** Every key is a subdirectory of some record, every record's subdirectory
      is a key, and no key repeats. */
  lemma {:induction false} FirstSeenIsKeySet(rs: seq<Record>)
    ensures Distinct(FirstSeen(rs))
    ensures forall d :: d in FirstSeen(rs) <==> HasSubdir(rs, d)
    decreases |rs|
  {
    if |rs| > 0 {
      var init := rs[..|rs| - 1];
      FirstSeenIsKeySet(init);
      forall d
        ensures HasSubdir(rs, d) <==> HasSubdir(init, d) || rs[|rs| - 1].subdir == d
      {
        if HasSubdir(rs, d) {
          var k :| 0 <= k < |rs| && rs[k].subdir == d;
          if k < |init| { assert init[k] == rs[k]; }
        }
        if HasSubdir(init, d) {
          var k :| 0 <= k < |init| && init[k].subdir == d;
          assert rs[k] == init[k];
        }
      }
    }
  }

  /** Under distinct keys, a group's list is the one `Lookup` finds for it. */
  lemma {:induction false} LookupDistinct(gs: seq<Group>, i: nat)
    requires Distinct(Keys(gs))
    requires i < |gs|
    ensures Lookup(gs, gs[i].subdir) == gs[i].entries
    decreases i
  {
    if i > 0 {
      assert Keys(gs)[0] != Keys(gs)[i];
      assert Keys(gs[1..]) == Keys(gs)[1..];
      LookupDistinct(gs[1..], i - 1);
    }
  }

  /** The count of records of subdirectory `k` is the length of its list. */
  lemma {:induction false} EntriesOfCount(rs: seq<Record>, k: string)
    ensures |EntriesOf(rs, k)| == |set i | 0 <= i < |rs| && rs[i].subdir == k|
    decreases |rs|
  {
    if |rs| > 0 {
      var n := |rs| - 1;
      var init := rs[..n];
      EntriesOfCount(init, k);
      var before := set i | 0 <= i < n && init[i].subdir == k;
      var after := set i | 0 <= i < |rs| && rs[i].subdir == k;
      if rs[n].subdir == k {
        assert after == before + {n};
      } else {
        assert after == before;
      }
    }
  }

  // ---------------------------------------------------------------------
  // Sorting: `print_times.sort(key=lambda x: x[1], reverse=True)`
  // ---------------------------------------------------------------------

  predicate NonIncreasing(s: seq<Entry>) {
    forall i, j :: 0 <= i < j < |s| ==> s[i].time >= s[j].time
  }

  /** The entries of `s` whose time is `t`, in order. */
  function WithTime(s: seq<Entry>, t: nat): seq<Entry>
    decreases |s|
  {
    if |s| == 0 then []
    else (if s[0].time == t then [s[0]] else []) + WithTime(s[1..], t)
  }

  lemma {:induction false} WithTimeAppend(a: seq<Entry>, b: seq<Entry>, t: nat)
    ensures WithTime(a + b, t) == WithTime(a, t) + WithTime(b, t)
    decreases |a|
  {
    if |a| == 0 {
      assert a + b == b;
    } else {
      assert (a + b)[0] == a[0];
      assert (a + b)[1..] == a[1..] + b;
      WithTimeAppend(a[1..], b, t);
    }
  }

  /** In a non-increasing list that starts below `t`, nothing has time `t`. */
  lemma {:induction false} WithTimeBelow(s: seq<Entry>, t: nat)
    requires NonIncreasing(s)
    requires |s| > 0 && s[0].time < t
    ensures WithTime(s, t) == []
    decreases |s|
  {
    if |s| > 1 {
      assert s[1..][0] == s[1];
      WithTimeBelow(s[1..], t);
    }
  }

  lemma NonIncreasingTail(s: seq<Entry>)
    requires NonIncreasing(s) && |s| > 0
    ensures NonIncreasing(s[1..])
  {
    assert forall i :: 0 <= i < |s| - 1 ==> s[1..][i] == s[i + 1];
  }

  /** Insert `e` after every entry whose time is at least its own, so that
      an entry never overtakes an earlier entry of equal time. */
  function InsertByTime(s: seq<Entry>, e: Entry): (r: seq<Entry>)
    ensures |r| == |s| + 1
    ensures r[0] == e || (|s| > 0 && r[0] == s[0])
    decreases |s|
  {
    if |s| == 0 then [e]
    else if s[0].time >= e.time then [s[0]] + InsertByTime(s[1..], e)
    else [e] + s
  }

  lemma {:induction false} InsertByTimePermutes(s: seq<Entry>, e: Entry)
    ensures multiset(InsertByTime(s, e)) == multiset(s) + multiset{e}
    decreases |s|
  {
    if |s| > 0 && s[0].time >= e.time {
      InsertByTimePermutes(s[1..], e);
      assert s == [s[0]] + s[1..];
    }
  }

  lemma {:induction false} InsertByTimeSorted(s: seq<Entry>, e: Entry)
    requires NonIncreasing(s)
    ensures NonIncreasing(InsertByTime(s, e))
    decreases |s|
  {
    if |s| == 0 {
    } else if s[0].time >= e.time {
      var tail := InsertByTime(s[1..], e);
      NonIncreasingTail(s);
      InsertByTimeSorted(s[1..], e);
      assert tail[0].time <= s[0].time;
      forall i, j | 0 <= i < j < |tail| + 1
        ensures ([s[0]] + tail)[i].time >= ([s[0]] + tail)[j].time
      {
        if i == 0 && j > 1 {
          assert tail[0].time >= tail[j - 1].time;
        }
      }
    } else {
      forall i, j | 0 <= i < j < |s| + 1
        ensures ([e] + s)[i].time >= ([e] + s)[j].time
      {
        if i == 0 && j > 1 {
          assert s[0].time >= s[j - 1].time;
        }
      }
    }
  }

  lemma WithTimeCons(x: Entry, rest: seq<Entry>, t: nat)
    ensures WithTime([x] + rest, t) == (if x.time == t then [x] else []) + WithTime(rest, t)
  {
    assert ([x] + rest)[0] == x;
    assert ([x] + rest)[1..] == rest;
  }

  lemma {:induction false} InsertByTimeStable(s: seq<Entry>, e: Entry, t: nat)
    requires NonIncreasing(s)
    ensures e.time == t ==> WithTime(InsertByTime(s, e), t) == WithTime(s, t) + [e]
    ensures e.time != t ==> WithTime(InsertByTime(s, e), t) == WithTime(s, t)
    decreases |s|
  {
    if |s| == 0 {
      WithTimeCons(e, [], t);
      assert [e] + [] == [e];
    } else if s[0].time >= e.time {
      var tail := InsertByTime(s[1..], e);
      assert InsertByTime(s, e) == [s[0]] + tail;
      NonIncreasingTail(s);
      InsertByTimeStable(s[1..], e, t);
      WithTimeCons(s[0], tail, t);
      WithTimeCons(s[0], s[1..], t);
      assert [s[0]] + s[1..] == s;
    } else {
      InsertAtFrontStable(s, e, t);
    }
  }

  /** The case where `e` goes in front of a list whose head is shorter. */
  lemma InsertAtFrontStable(s: seq<Entry>, e: Entry, t: nat)
    requires NonIncreasing(s)
    requires |s| > 0 && s[0].time < e.time
    ensures e.time == t ==> WithTime(InsertByTime(s, e), t) == WithTime(s, t) + [e]
    ensures e.time != t ==> WithTime(InsertByTime(s, e), t) == WithTime(s, t)
  {
    assert InsertByTime(s, e) == [e] + s;
    if e.time == t {
      WithTimeBelow(s, t);
    }
    WithTimeCons(e, s, t);
  }

  /** A stable insertion sort on time, longest first: Python's `sort` is
      stable also with `reverse=True`. */
  function SortByTimeDesc(s: seq<Entry>): (r: seq<Entry>)
    ensures multiset(r) == multiset(s)
    ensures NonIncreasing(r)
    decreases |s|
  {
    if |s| == 0 then []
    else
      var sorted := SortByTimeDesc(s[..|s| - 1]);
      assert s == s[..|s| - 1] + [s[|s| - 1]];
      InsertByTimePermutes(sorted, s[|s| - 1]);
      InsertByTimeSorted(sorted, s[|s| - 1]);
      InsertByTime(sorted, s[|s| - 1])
  }

  /** Entries of equal time keep their original relative order. */
  lemma {:induction false} SortByTimeDescStable(s: seq<Entry>, t: nat)
    ensures WithTime(SortByTimeDesc(s), t) == WithTime(s, t)
    decreases |s|
  {
    if |s| > 0 {
      var init, last := s[..|s| - 1], s[|s| - 1];
      SortByTimeDescStable(init, t);
      InsertByTimeStable(SortByTimeDesc(init), last, t);
      assert s == init + [last];
      WithTimeAppend(init, [last], t);
      assert [last][1..] == [];
    }
  }

  /** The sorting loop over `subdir_print_times`. */
  function SortGroups(gs: seq<Group>): (sorted: seq<Group>)
    ensures Keys(sorted) == Keys(gs)
    ensures forall i :: 0 <= i < |gs| ==>
              multiset(sorted[i].entries) == multiset(gs[i].entries) && NonIncreasing(sorted[i].entries)
  {
    seq(|gs|, i requires 0 <= i < |gs| => Group(gs[i].subdir, SortByTimeDesc(gs[i].entries)))
  }

  /** `subdir_print_times` after grouping and sorting. */
  function PrintTimeIndex(rs: seq<Record>): (gs: seq<Group>)
    ensures Keys(gs) == FirstSeen(rs)
    ensures forall i :: 0 <= i < |gs| ==>
              multiset(gs[i].entries) == multiset(EntriesOf(rs, gs[i].subdir))
              && NonIncreasing(gs[i].entries)
    ensures forall i :: 0 <= i < |gs| ==> gs[i].entries == SortByTimeDesc(EntriesOf(rs, gs[i].subdir))
  {
    var grouped := GroupBySubdir(rs);
    FirstSeenIsKeySet(rs);
    forall i | 0 <= i < |grouped|
      ensures grouped[i].entries == EntriesOf(rs, grouped[i].subdir)
    {
      LookupDistinct(grouped, i);
    }
    SortGroups(grouped)
  }
}

=== FILE: report.dfy ===
/** The rows main.py prints on each pass of its loop over `config_map`: for
    each `[stl_file, time]` of the sorted list stored under the key the pass
    compares against, the file, the subdirectory and the time split into
    days, hours and minutes. The grouping loop rebinds `current_subdir` to the
    subdirectory of the last triple collected so far, and that is the key
    compared; `PassRowsAsWritten` models this and `PassRows` the table of the
    printer just processed. Column formatting is not modelled. */
module Report {
  import opened Extraction
  import opened Index
  import opened TimeSplit

  datatype Row = Row(file: string, subdir: string, span: Dhm)

  /** The rows of one group, in list order. */
  function GroupRows(subdir: string, entries: seq<Entry>): (rows: seq<Row>)
    ensures |rows| == |entries|
    ensures forall k :: 0 <= k < |rows| ==> rows[k] == Row(entries[k].file, subdir, Decompose(entries[k].time))
  {
    seq(|entries|, k requires 0 <= k < |entries| => Row(entries[k].file, subdir, Decompose(entries[k].time)))
  }

  /** The loop over `subdir_print_times` that skips every key but `current`. */
  function ReportRows(gs: seq<Group>, current: string): seq<Row>
    decreases |gs|
  {
    if |gs| == 0 then []
    else (if gs[0].subdir == current then GroupRows(current, gs[0].entries) else [])
         + ReportRows(gs[1..], current)
  }

  /** With distinct keys, the report is the rows of the one list stored
      under `current`, or nothing when `current` has no list. */
  lemma {:induction false} ReportRowsIsLookup(gs: seq<Group>, current: string)
    requires Distinct(Keys(gs))
    ensures ReportRows(gs, current) == GroupRows(current, Lookup(gs, current))
    decreases |gs|
  {
    if |gs| > 0 {
      assert Keys(gs[1..]) == Keys(gs)[1..];
      ReportRowsIsLookup(gs[1..], current);
      if gs[0].subdir == current {
        assert current !in Keys(gs[1..]);
        LookupAbsent(gs[1..], current);
        assert GroupRows(current, []) == [];
        assert GroupRows(current, gs[0].entries) + [] == GroupRows(current, gs[0].entries);
      } else {
        assert [] + ReportRows(gs[1..], current) == ReportRows(gs[1..], current);
      }
    }
  }

  lemma {:induction false} LookupAbsent(gs: seq<Group>, k: string)
    requires k !in Keys(gs)
    ensures Lookup(gs, k) == []
    decreases |gs|
  {
    if |gs| > 0 {
      assert Keys(gs)[0] == gs[0].subdir;
      assert Keys(gs[1..]) == Keys(gs)[1..];
      LookupAbsent(gs[1..], k);
    }
  }

  /** The report for `current` has one row per record of `current`, every
      row names `current`, and the shown durations never increase down the
      table. */
  lemma ReportOfIndex(rs: seq<Record>, current: string)
    ensures var rows := ReportRows(PrintTimeIndex(rs), current);
            && |rows| == |EntriesOf(rs, current)|
            && (forall k :: 0 <= k < |rows| ==> rows[k].subdir == current)
            && (forall i, j :: 0 <= i < j < |rows| ==> rows[i].span.Seconds() >= rows[j].span.Seconds())
    ensures ReportRows(PrintTimeIndex(rs), current) == GroupRows(current, SortByTimeDesc(EntriesOf(rs, current)))
  {
    var gs := PrintTimeIndex(rs);
    FirstSeenIsKeySet(rs);
    ReportRowsIsLookup(gs, current);
    var entries := Lookup(gs, current);
    var rows := ReportRows(gs, current);
    if current in Keys(gs) {
      var i :| 0 <= i < |gs| && Keys(gs)[i] == current;
      LookupDistinct(gs, i);
      assert multiset(entries) == multiset(EntriesOf(rs, current));
      assert |entries| == |multiset(entries)|;
      assert NonIncreasing(entries);
      assert entries == SortByTimeDesc(EntriesOf(rs, current));
    } else {
      LookupAbsent(gs, current);
      assert !HasSubdir(rs, current);
      EntriesOfAbsent(rs, current);
      assert SortByTimeDesc(EntriesOf(rs, current)) == [];
    }
    forall i, j | 0 <= i < j < |rows|
      ensures rows[i].span.Seconds() >= rows[j].span.Seconds()
    {
      DecomposeMonotone(entries[j].time, entries[i].time);
    }
  }

  lemma {:induction false} EntriesOfAbsent(rs: seq<Record>, k: string)
    requires !HasSubdir(rs, k)
    ensures EntriesOf(rs, k) == []
    decreases |rs|
  {
    if |rs| > 0 {
      var init := rs[..|rs| - 1];
      assert rs[|rs| - 1].subdir != k;
      assert forall j :: 0 <= j < |init| ==> init[j] == rs[j];
      EntriesOfAbsent(init, k);
    }
  }

  // ---------------------------------------------------------------------
  // One pass of the loop over `config_map`
  // ---------------------------------------------------------------------

  /** The value of `current_subdir` when the report loop compares keys: the
      grouping loop has rebound it to the subdirectory of the last triple of
      `all`, so only with no triples at all is it still `processed`. */
  function PassKey(all: seq<Record>, processed: string): (k: string)
    ensures k == processed || HasSubdir(all, k)
    ensures |all| > 0 ==> HasSubdir(all, k)
  {
    if |all| == 0 then processed else all[|all| - 1].subdir
  }

  /** The rows printed, as written, by the pass for `processed` once `all`
      holds every triple collected so far. */
  function PassRowsAsWritten(all: seq<Record>, processed: string): (rows: seq<Row>)
    ensures forall k :: 0 <= k < |rows| ==> HasSubdir(all, rows[k].subdir)
  {
    var key := PassKey(all, processed);
    ReportOfIndex(all, key);
    assert |all| == 0 ==> EntriesOf(all, key) == [];
    ReportRows(PrintTimeIndex(all), key)
  }

  /** The rows the pass for `processed` evidently means to print: the table
      of `processed` itself, one row per triple of it, with durations that
      never increase down the table. */
  function PassRows(all: seq<Record>, processed: string): (rows: seq<Row>)
    ensures |rows| == |EntriesOf(all, processed)|
    ensures forall k :: 0 <= k < |rows| ==> rows[k].subdir == processed
    ensures forall i, j :: 0 <= i < j < |rows| ==> rows[i].span.Seconds() >= rows[j].span.Seconds()
    ensures rows == GroupRows(processed, SortByTimeDesc(EntriesOf(all, processed)))
  {
    ReportOfIndex(all, processed);
    ReportRows(PrintTimeIndex(all), processed)
  }

  /** What each pass prints as written, where `before` holds the triples of
      the earlier passes and `entries` those this pass found: its own table
      when it found something; otherwise the table of the printer of the
      last earlier triple, or nothing when no triple exists yet. */
  lemma PassPrints(before: seq<Record>, processed: string, entries: seq<Entry>)
    ensures var all := before + Tag(processed, entries);
            && (|entries| > 0 ==> PassRowsAsWritten(all, processed) == PassRows(all, processed))
            && (|entries| == 0 && |before| > 0 ==>
                  PassRowsAsWritten(all, processed) == PassRows(all, before[|before| - 1].subdir))
            && (|entries| == 0 && |before| == 0 ==> PassRowsAsWritten(all, processed) == [])
  {
    var all := before + Tag(processed, entries);
    if |entries| > 0 {
      assert all[|all| - 1] == Tag(processed, entries)[|entries| - 1];
    } else {
      assert all == before;
      if |before| == 0 {
        ReportOfIndex(all, processed);
        assert EntriesOf(all, processed) == [];
      }
    }
  }

  /** "Black" yields one file and "Orange" none: the pass for "Orange"
      prints Black's one row again, where its own table is empty. */
  lemma ReprintsPreviousPrinter()
    ensures var all := [Record("Black", "a.stl", 60)];
            && PassKey(all, "Orange") == "Black"
            && PassRows(all, "Orange") == []
            && |PassRowsAsWritten(all, "Orange")| == 1
            && PassRowsAsWritten(all, "Orange")[0].subdir == "Black"
  {
    var all := [Record("Black", "a.stl", 60)];
    assert all[..0] == [];
    assert EntriesOf(all, "Orange") == [];
    assert EntriesOf(all, "Black") == [Entry("a.stl", 60)];
    ReportOfIndex(all, "Black");
  }
}

=== FILE: results.dfy ===
/** Failure-carrying values for the modelled Python code: `None`-like absence
    and the exceptions the code can raise. */
module Results {

  datatype Option<+T> = None | Some(value: T)

  /** The exceptions raised on the modelled paths. */
  datatype Error =
    | KeyError(key: string)            // `subdir_map[subdir]` for a subdirectory it does not map
    | EmptyReduce                      // `functools.reduce` over an empty sequence (a TypeError)
    | PrintTimeNotFound(file: string)  // raised by `get_file_print_time`

  datatype Result<+T> = Ok(value: T) | Err(error: Error)
}

=== FILE: text.dfy ===
/** Character and string primitives the modelled code relies on:
    `str.endswith`, a literal prefix of a regular expression, the class `\d`,
    `re.findall(r"\d+", …)`, and `int(…)` / `str(…)` on decimal numerals. */
module Text {

  /** The `\d` class, restricted to ASCII digits. */
  predicate IsDigit(c: char) { '0' <= c <= '9' }

  predicate AllDigits(s: string) { forall i :: 0 <= i < |s| ==> IsDigit(s[i]) }

  /** A non-empty run of digits: what `\d+` matches and what `int` accepts. */
  predicate IsNumeral(s: string) { |s| > 0 && AllDigits(s) }

  predicate StartsWith(s: string, prefix: string) {
    |prefix| <= |s| && s[..|prefix|] == prefix
  }

  predicate EndsWith(s: string, suffix: string) {
    |suffix| <= |s| && s[|s| - |suffix|..] == suffix
  }

  /** Length of the longest run of digits at the start of `s` (greedy `\d*`). */
  function DigitPrefixLen(s: string): (n: nat)
    ensures n <= |s|
    ensures AllDigits(s[..n])
    ensures n < |s| ==> !IsDigit(s[n])
  {
    if |s| > 0 && IsDigit(s[0]) then
      var m := DigitPrefixLen(s[1..]);
      assert s[..1 + m] == [s[0]] + s[1..][..m];
      1 + m
    else 0
  }

  /** A numeral followed by a non-digit is matched by `\d+` exactly. */
  lemma {:induction false} DigitPrefixLenOfNumeral(d: string, rest: string)
    requires AllDigits(d)
    requires |rest| == 0 || !IsDigit(rest[0])
    ensures DigitPrefixLen(d + rest) == |d|
    decreases |d|
  {
    if |d| == 0 {
      assert d + rest == rest;
    } else {
      assert (d + rest)[1..] == d[1..] + rest;
      DigitPrefixLenOfNumeral(d[1..], rest);
    }
  }

  /** `re.findall(r"\d+", s)`: the maximal runs of digits, left to right. */
  function DigitRuns(s: string): (runs: seq<string>)
    ensures forall k :: 0 <= k < |runs| ==> IsNumeral(runs[k])
    decreases |s|
  {
    if |s| == 0 then []
    else if IsDigit(s[0]) then
      var n := DigitPrefixLen(s);
      [s[..n]] + DigitRuns(s[n..])
    else DigitRuns(s[1..])
  }

  /** The digits of `s` in order, everything else dropped. */
  function DigitsOf(s: string): string
    decreases |s|
  {
    if |s| == 0 then ""
    else if IsDigit(s[0]) then [s[0]] + DigitsOf(s[1..])
    else DigitsOf(s[1..])
  }

  function Concat(runs: seq<string>): string
    decreases |runs|
  {
    if |runs| == 0 then "" else runs[0] + Concat(runs[1..])
  }

  lemma {:induction false} DigitsOfAppend(a: string, b: string)
    ensures DigitsOf(a + b) == DigitsOf(a) + DigitsOf(b)
    decreases |a|
  {
    if |a| > 0 {
      assert (a + b)[1..] == a[1..] + b;
      DigitsOfAppend(a[1..], b);
    } else {
      assert a + b == b;
    }
  }

  /** `re.findall(r"\d+", s)` loses no digit and invents none: the runs,
      joined, are exactly the digits of `s`. */
  lemma {:induction false} DigitRunsCoverDigits(s: string)
    ensures Concat(DigitRuns(s)) == DigitsOf(s)
    decreases |s|
  {
    if |s| > 0 {
      if IsDigit(s[0]) {
        var n := DigitPrefixLen(s);
        assert s == s[..n] + s[n..];
        DigitsOfAppend(s[..n], s[n..]);
        DigitsOfNumeral(s[..n]);
        DigitRunsCoverDigits(s[n..]);
        assert DigitRuns(s)[1..] == DigitRuns(s[n..]);
      } else {
        DigitRunsCoverDigits(s[1..]);
      }
    }
  }

  lemma {:induction false} DigitsOfNumeral(d: string)
    requires AllDigits(d)
    ensures DigitsOf(d) == d
    decreases |d|
  {
    if |d| > 0 {
      DigitsOfNumeral(d[1..]);
      assert d == [d[0]] + d[1..];
    }
  }

  /** A numeral followed by a non-digit is found as one run. */
  lemma DigitRunsAfterNumeral(d: string, rest: string)
    requires IsNumeral(d)
    requires |rest| > 0 && !IsDigit(rest[0])
    ensures DigitRuns(d + rest) == [d] + DigitRuns(rest)
  {
    var s := d + rest;
    DigitPrefixLenOfNumeral(d, rest);
    assert s[..|d|] == d;
    assert s[|d|..] == rest;
  }

  lemma DigitRunsSkip(c: char, rest: string)
    requires !IsDigit(c)
    ensures DigitRuns([c] + rest) == DigitRuns(rest)
  {
    assert ([c] + rest)[1..] == rest;
  }

  function DigitValue(c: char): (v: nat)
    requires IsDigit(c)
    ensures v < 10
  {
    c as int - '0' as int
  }

  function DigitChar(k: nat): (c: char)
    requires k < 10
    ensures IsDigit(c) && DigitValue(c) == k
  {
    ('0' as int + k) as char
  }

  /** `int(d)` for a numeral `d` (leading zeros allowed, as in Python). */
  function DecimalValue(d: string): nat
    requires IsNumeral(d)
    decreases |d|
  {
    if |d| == 1 then DigitValue(d[0])
    else 10 * DecimalValue(d[..|d| - 1]) + DigitValue(d[|d| - 1])
  }

  /** `str(n)` for a natural number. */
  function DecimalText(n: nat): (s: string)
    ensures IsNumeral(s)
    decreases n
  {
    if n < 10 then [DigitChar(n)] else DecimalText(n / 10) + [DigitChar(n % 10)]
  }

  /** `int(str(n)) == n`. */
  lemma {:induction false} DecimalRoundTrip(n: nat)
    ensures DecimalValue(DecimalText(n)) == n
    decreases n
  {
    if n >= 10 {
      var s := DecimalText(n);
      assert s[..|s| - 1] == DecimalText(n / 10);
      DecimalRoundTrip(n / 10);
    }
  }
}

=== FILE: timesplit.dfy ===
/** Splitting a number of seconds into whole days, hours and minutes, as
    main.py does for each report row and utils.py does in
    `display_total_print_time` and `display_stl_print_time`. Python's `//` and
    `%` with a positive divisor floor, which is what Dafny's `/` and `%` do for
    a positive divisor, so the model holds for negative inputs too. */
module TimeSplit {

  const SecondsPerMinute: int := 60
  const SecondsPerHour: int := 3600
  const SecondsPerDay: int := 24 * 3600

  /** Whole days, hours and minutes; leftover seconds are dropped. */
  datatype Dhm = Dhm(days: int, hours: int, minutes: int)
  {
    /** The seconds this split stands for. */
    function Seconds(): int {
      days * SecondsPerDay + hours * SecondsPerHour + minutes * SecondsPerMinute
    }

    predicate InRange() {
      0 <= hours < 24 && 0 <= minutes < 60
    }
  }

  /** `days = time // (24*3600); time %= 24*3600; hours = time // 3600;
      time %= 3600; minutes = time // 60`. */
  function Decompose(time: int): (r: Dhm)
    ensures r.InRange()
    ensures r.Seconds() <= time < r.Seconds() + SecondsPerMinute
  {
    var days := time / SecondsPerDay;
    var inDay := time % SecondsPerDay;
    var hours := inDay / SecondsPerHour;
    var inHour := inDay % SecondsPerHour;
    Dhm(days, hours, inHour / SecondsPerMinute)
  }

  /** The split is the only in-range one that is at most `time` and less than
      a minute short of it. */
  lemma DecomposeUnique(time: int, d: Dhm)
    requires d.InRange()
    requires d.Seconds() <= time < d.Seconds() + SecondsPerMinute
    ensures d == Decompose(time)
  {
    var e := Decompose(time);
    var dm := d.days * 1440 + d.hours * 60 + d.minutes;
    var em := e.days * 1440 + e.hours * 60 + e.minutes;
    assert d.Seconds() == dm * 60;
    assert e.Seconds() == em * 60;
    assert dm == em;
    var dh := d.days * 24 + d.hours;
    var eh := e.days * 24 + e.hours;
    assert dm == dh * 60 + d.minutes && em == eh * 60 + e.minutes;
    assert d.minutes == e.minutes && dh == eh;
    assert d.hours == e.hours && d.days == e.days;
  }

  /** Adding back the seconds within the minute recovers `time` exactly. */
  lemma DecomposeExact(time: int)
    ensures Decompose(time).Seconds() + time % 60 == time
  {
    var r := Decompose(time);
    var q := r.days * 1440 + r.hours * 60 + r.minutes;
    var m := time / 60;
    assert r.Seconds() == q * 60;
    assert time == 60 * m + time % 60 && 0 <= time % 60 < 60;
    assert q == m;
  }

  /** Each field in closed form: days are whole days, hours are whole hours
      within the day, minutes are whole minutes within the hour. */
  lemma DecomposeFields(time: int)
    ensures Decompose(time).days == time / SecondsPerDay
    ensures Decompose(time).hours == (time / SecondsPerHour) % 24
    ensures Decompose(time).minutes == (time / SecondsPerMinute) % 60
  {
    var r := Decompose(time);
    var d := Dhm(time / SecondsPerDay, (time / SecondsPerHour) % 24, (time / SecondsPerMinute) % 60);
    var m := time / 60;
    var h := m / 60;
    assert time / SecondsPerHour == h;
    assert time / SecondsPerDay == h / 24;
    assert d.Seconds() == m * 60;
    DecomposeUnique(time, d);
  }

  /** The split stands for `time` rounded down to a whole minute. */
  lemma DecomposeWholeMinutes(time: int)
    ensures Decompose(time).Seconds() == 60 * (time / 60)
  {
    DecomposeExact(time);
    assert time == 60 * (time / 60) + time % 60;
  }

  /** A longer time never shows as a shorter split. */
  lemma DecomposeMonotone(t1: int, t2: int)
    requires t1 <= t2
    ensures Decompose(t1).Seconds() <= Decompose(t2).Seconds()
  {
    DecomposeWholeMinutes(t1);
    DecomposeWholeMinutes(t2);
    var q1, q2 := t1 / 60, t2 / 60;
    assert 60 * q1 <= t1 && t2 < 60 * q2 + 60;
    assert q1 < q2 + 1;
  }

  /** `display_total_print_time(time)` without the printing. */
  method DisplayTotalPrintTime(time: int) returns (days: int, hours: int, minutes: int)
    ensures Dhm(days, hours, minutes) == Decompose(time)
    ensures days * SecondsPerDay + hours * SecondsPerHour + minutes * SecondsPerMinute + time % 60 == time
    ensures 0 <= hours < 24 && 0 <= minutes < 60
  {
    var t := time;
    days := t / (24 * 3600);
    t := t % (24 * 3600);
    hours := t / 3600;
    t := t % 3600;
    minutes := t / 60;
    DecomposeExact(time);
  }

  /** `display_stl_print_time(stl_file, time)` without the printing: the same
      split as `display_total_print_time`. */
  method DisplayStlPrintTime(stlFile: string, time: int) returns (days: int, hours: int, minutes: int)
    ensures Dhm(days, hours, minutes) == Decompose(time)
    ensures days * SecondsPerDay + hours * SecondsPerHour + minutes * SecondsPerMinute + time % 60 == time
    ensures 0 <= hours < 24 && 0 <= minutes < 60
  {
    var t := time;
    days := t / (24 * 3600);
    t := t % (24 * 3600);
    hours := t / 3600;
    t := t % 3600;
    minutes := t / 60;
    DecomposeExact(time);
  }
}

=== FILE: utils.dfy ===
/** The listing filter and the print-time lookup of utils.py. */
module Utils {
  import opened Results
  import opened Text
  import opened Index

  /** `xs` occurs in `ys` in order, possibly with gaps. */
  predicate IsSubsequence(xs: seq<string>, ys: seq<string>)
    decreases |ys|
  {
    |xs| == 0 || (|ys| > 0 && if xs[0] == ys[0] then IsSubsequence(xs[1..], ys[1..]) else IsSubsequence(xs, ys[1..]))
  }

  /** `filter_stl_files(p)` on the listing `os.listdir(p)` returned: the names
      ending in ".stl", in listing order, none dropped. */
  function FilterStlFiles(listing: seq<string>): (r: seq<string>)
    ensures forall k :: 0 <= k < |r| ==> EndsWith(r[k], ".stl")
    ensures forall x :: multiset(r)[x] == if EndsWith(x, ".stl") then multiset(listing)[x] else 0
    ensures IsSubsequence(r, listing)
    decreases |listing|
  {
    if |listing| == 0 then []
    else
      var name := listing[0];
      var rest := FilterStlFiles(listing[1..]);
      assert listing == [name] + listing[1..];
      if EndsWith(name, ".stl") then
        assert ([name] + rest)[1..] == rest;
        [name] + rest
      else
        SubsequenceSkip(rest, name, listing[1..]);
        rest
  }

  /** A subsequence stays one when an element is put in front. */
  lemma {:induction false} SubsequenceSkip(xs: seq<string>, y: string, ys: seq<string>)
    requires IsSubsequence(xs, ys)
    ensures IsSubsequence(xs, [y] + ys)
    decreases |ys|, 1
  {
    assert ([y] + ys)[1..] == ys;
    if |xs| > 0 && xs[0] == y {
      SubsequenceDropHead(xs, ys);
    }
  }

  lemma {:induction false} SubsequenceDropHead(xs: seq<string>, ys: seq<string>)
    requires |xs| > 0 && IsSubsequence(xs, ys)
    ensures IsSubsequence(xs[1..], ys)
    decreases |ys|, 0
  {
    assert [ys[0]] + ys[1..] == ys;
    if xs[0] != ys[0] {
      SubsequenceDropHead(xs, ys[1..]);
    }
    SubsequenceSkip(xs[1..], ys[0], ys[1..]);
  }

  /** Filtering distributes over concatenation of listings. */
  lemma {:induction false} FilterStlFilesAppend(a: seq<string>, b: seq<string>)
    ensures FilterStlFiles(a + b) == FilterStlFiles(a) + FilterStlFiles(b)
    decreases |a|
  {
    if |a| == 0 {
      assert a + b == b;
    } else {
      assert (a + b)[0] == a[0];
      assert (a + b)[1..] == a[1..] + b;
      FilterStlFilesAppend(a[1..], b);
    }
  }

  /** `[time for _, file, time in all_print_times if file == stl_file]`. */
  function TimesFor(all: seq<Record>, file: string): (ts: seq<nat>)
    ensures |ts| == 0 <==> forall k :: 0 <= k < |all| ==> all[k].file != file
    ensures |ts| > 0 ==> exists k :: 0 <= k < |all| && all[k].file == file && ts[0] == all[k].time
                                     && forall j :: 0 <= j < k ==> all[j].file != file
    decreases |all|
  {
    if |all| == 0 then []
    else
      var rest := TimesFor(all[1..], file);
      assert forall k :: 1 <= k < |all| ==> all[k] == all[1..][k - 1];
      if all[0].file == file then [all[0].time] + rest
      else
        assert |rest| > 0 ==> exists k :: 0 <= k < |all| && all[k].file == file && rest[0] == all[k].time
                                          && forall j :: 0 <= j < k ==> all[j].file != file by {
          if |rest| > 0 {
            var k :| 0 <= k < |all| - 1 && all[1..][k].file == file && rest[0] == all[1..][k].time
                     && forall j :: 0 <= j < k ==> all[1..][j].file != file;
            assert all[k + 1] == all[1..][k];
          }
        }
        rest
  }

  /** `get_file_print_time(all_print_times, stl_file)`: the time of the first
      triple for `file`; raises when there is none, never a default. */
  function GetFilePrintTime(all: seq<Record>, file: string): (r: Result<nat>)
    ensures r.Err? <==> forall k :: 0 <= k < |all| ==> all[k].file != file
    ensures r.Err? ==> r.error == PrintTimeNotFound(file)
    ensures r.Ok? ==> exists k :: 0 <= k < |all| && all[k].file == file && all[k].time == r.value
                                  && forall j :: 0 <= j < k ==> all[j].file != file
  {
    var times := TimesFor(all, file);
    if |times| == 0 then Err(PrintTimeNotFound(file)) else Ok(times[0])
  }

  /** Records added after a hit never change the answer. */
  lemma GetFilePrintTimeIgnoresLater(all: seq<Record>, more: seq<Record>, file: string)
    requires GetFilePrintTime(all, file).Ok?
    ensures GetFilePrintTime(all + more, file) == GetFilePrintTime(all, file)
  {
    var r := GetFilePrintTime(all, file);
    var k :| 0 <= k < |all| && all[k].file == file && all[k].time == r.value
             && forall j :: 0 <= j < k ==> all[j].file != file;
    var both := all + more;
    assert both[k] == all[k];
    var r2 := GetFilePrintTime(both, file);
    var k2 :| 0 <= k2 < |both| && both[k2].file == file && both[k2].time == r2.value
              && forall j :: 0 <= j < k2 ==> both[j].file != file;
    assert k2 <= k;
    assert both[k2] == all[k2];
  }

  /** The subdirectory component plays no part in the lookup. */
  lemma GetFilePrintTimeIgnoresSubdir(all: seq<Record>, other: seq<Record>, file: string)
    requires |all| == |other|
    requires forall k :: 0 <= k < |all| ==> all[k].file == other[k].file && all[k].time == other[k].time
    ensures GetFilePrintTime(all, file) == GetFilePrintTime(other, file)
  {
    var r1, r2 := GetFilePrintTime(all, file), GetFilePrintTime(other, file);
    if r1.Ok? {
      var k1 :| 0 <= k1 < |all| && all[k1].file == file && all[k1].time == r1.value
                && forall j :: 0 <= j < k1 ==> all[j].file != file;
      var k2 :| 0 <= k2 < |other| && other[k2].file == file && other[k2].time == r2.value
                && forall j :: 0 <= j < k2 ==> other[j].file != file;
      assert k1 == k2;
    }
  }
}
